=== FILE: README.md ===
# climap-srv ingestion and search core, modelled in Dafny

climap-srv is a geotagged photo service. An upload (`UploadImg`) takes an
image, either as a form file or as a URL to fetch. It reads the image once
through a tee that feeds an EXIF decoder, a SHA-1 hasher and, for form files,
a temporary file (`saveImg`). It then renames the temporary file to the hex
hash, inserts a row into the image table and registers the tag. A search
(`Search`) validates a viewport given by its south-west and north-east
corners and builds a box query with an optional tag suffix. It maps the
returned rows to records (`toObjs`). The point lookup (`GetImg`) rewrites
stored relative URLs the same way `toObjs` does.

The model has one module per component:

- `Common`: optional values, bytes, and the prefix and suffix tests.
- `Hex`: `hex.EncodeToString` and its inverse.
- `SaveImage`: the tee, the drain and `saveImg`. SHA-1 is a function
  parameter whose results are 20 bytes long. The EXIF decoder is an oracle
  that pulls some prefix of the stream and then yields a coordinate or an
  error.
- `Records`: the `Point` and `Img` records, stored rows, the URL rewrite,
  `toObjs` and `GetImg`.
- `SqlText`: the search's SQL text, as literal pieces and `$n` placeholders.
  One lemma shows that rendering them gives the source's text exactly.
- `Search`: validation, the argument list, the box containment predicate
  over reals, and the whole handler with the store as an oracle.
- `Upload`: the upload as one step over a world, made of the storage root
  (file name to content), the image rows keyed by their unique hash, the tag
  set and the id sequence. Every foreign call is an oracle outcome. The
  cleanup is a parameter. `AsWritten` is what the handler does. `Corrected`
  is the compensation that keeps file storage and rows consistent: a failed
  extraction removes the temporary file, and a failed insert removes only a
  file that this local upload staged and that no row owns.

Several behaviours of the code are easy to misread; the model follows the
code:

- A failed extraction returns without removing the temporary file.
- A failed insert deletes the file named by the hash, in local and remote
  mode alike.
- An inverted rectangle is not taken literally. The code hands both corners
  to Postgres's `box`, which orders them, so the model's containment holds
  when each coordinate lies between the two corner values, in either order.
- The tag filter is the text `" && tag=$5"` appended to the query, and the
  model keeps it as text only.
- A failed insert can still use up an id. The `bigserial` default draws
  from its sequence before the unique index on `hash` rejects a duplicate,
  and sequence values are never given back.

## Model

| member | source | states |
|---|---|---|
| Hex.EncodeToString | init_chi.go:262 | the hash text has two characters per digest byte, all of them lower-case hex digits |
| Hex.DecodeEncode | init_chi.go:262 | decoding the hex text of a byte string gives that byte string back |
| Hex.EncodeDecode | init_chi.go:262 | every even-length lower-case hex string is the encoding of what it decodes to |
| Hex.EncodeInjective | init_chi.go:262 | distinct digests never share a hex name |
| SaveImage.Drain | init_chi.go:257-260 | the drain passes every further byte to both the sink and the hasher; it succeeds exactly when the reader does not fail before the end, and then nothing is left unread |
| SaveImage.SaveImg | init_chi.go:242-264 | sink and hasher always see the same bytes, a prefix of the input; success happens exactly when the decoder finds a coordinate and the drain completes, and then both saw the whole input and the hash is the hex digest of it; every failure returns the empty hash and names the step that failed |
| SaveImage.HashIsHexDigest | init_chi.go:262 | a successful hash is 40 lower-case hex digits that decode to the digest of the whole stream |
| SaveImage.ResultIgnoresParserConsumption | init_chi.go:245-262 | however many bytes the decoder pulls, a successful run gives the same sink contents and the same hash |
| SaveImage.HashDeterministic | init_chi.go:243-262 | two successful runs over the same bytes give the same hash |
| Records.NormaliseUrl | init_chi.go:222-224 | a URL starting with "http" is unchanged, any other becomes exactly scheme + "://" + host + url; the stored URL always ends the result, and the result is absolute: it starts with "http" or with the scheme and host |
| Records.NormaliseIdempotentIff | init_chi.go:284-286 | rewriting twice equals rewriting once if and only if the URL already starts with "http" or the scheme does |
| Records.ToImg | init_chi.go:281-286 | a row becomes a record with longitude from X, latitude from Y, the other fields copied and the URL rewritten |
| Records.ScannedPrefix | init_chi.go:275-279 | the loop gets through exactly the rows before the first scan error: every row before the count scans, and the row at the count, if any, fails |
| Records.ToObjs | init_chi.go:267-292 | the mapping returns one record per row up to the first scan error, and reports an error exactly when it stopped before the end of the rows |
| Records.ToObjsMapsInOrder | init_chi.go:275-289 | the i-th record is the i-th row as a record with id 0, in the rows' order |
| Records.ToObjsErrorIffScanError | init_chi.go:275-291 | the error is reported exactly when some row fails to scan; the row at the failing position is the first failure, and without an error every row is mapped |
| Records.ToObjsNeverSetsId | init_chi.go:270-288 | every record from the search mapping keeps id 0 and has an absolute URL, starting with "http" or with the scheme and host |
| Records.GetImg | init_chi.go:202-224 | a non-numeric id parameter looks up id 0, and any other looks up what `strconv.Atoi` returns, the clamped bound for an out-of-range number; the lookup is not found exactly when the store has no row for that id, and a found record is that row mapped with that id |
| Records.GetImgAgreesWithToObjs | init_chi.go:208-224 | the lookup and the search map a row to the same record, except that only the lookup fills in the id |
| SqlText.RenderMatchesSource | init_chi.go:88-96 | the rendered query is the source's select text with the table name spliced in, and the tag suffix is " && tag=$5" |
| SqlText.QueryText | init_chi.go:88-97 | the whole text sent before its ";" is the select text followed by " && tag=$5" exactly when the tag is non-empty |
| SqlText.QueryNumbers | init_chi.go:88-97 | the query's placeholders are $1 to $4, followed by $5 exactly when a tag is given |
| Search.BuildSearch | init_chi.go:59-98 | validation fails exactly when one of the four coordinates does not parse; it reports the first failing one in the order swlon, swlat, nelon, nelat, with its message; otherwise the arguments are NE lon, NE lat, SW lon, SW lat, plus the tag exactly when it is non-empty |
| Search.PlaceholdersMatchArgs | init_chi.go:88-98 | the placeholders are numbered 1 to n for exactly the n arguments |
| Search.InBoxSymmetric | init_chi.go:90-93 | box containment does not depend on which corner comes first |
| Search.QuerySelectsViewport | init_chi.go:88-93 | a built query selects a location exactly when each coordinate lies between the matching corner values; for a well-ordered viewport this is inclusive containment in [swlon, nelon] x [swlat, nelat] |
| Search.SearchImgs | init_chi.go:59-102 | an invalid viewport sends no query and replies with the field's message; a valid one sends the built query and replies with the mapped rows |
| Search.SearchRepliesInsideViewport | init_chi.go:88-112 | when the store returns only rows the box selects, every record in the reply has its longitude between the two corner longitudes and its latitude between the two corner latitudes |
| Upload.UploadImg | init_chi.go:115-185 | a form error changes nothing; every failure leaves the image rows and tags unchanged, and only a failed insert can use up an id; a success adds exactly one row, replies with the next id and advances the id sequence |
| Upload.UploadLocal | init_chi.go:130-153 | a local upload that fails leaves the image rows and tags unchanged, and only a failed insert can use up an id; one that succeeds adds exactly one row under the next id |
| Upload.UploadRemote | init_chi.go:154-165 | a remote upload that fails leaves the image rows and tags unchanged, and only a failed insert can use up an id; one that succeeds adds exactly one row under the next id |
| Upload.Commit | init_chi.go:167-183 | the insert is refused exactly for a duplicate hash or a failed statement; a refusal leaves the rows and tags unchanged, and a duplicate uses up one id; an accepted insert adds exactly the row point(lon, lat), tag, description, URL, hash under the next id, replies with that id and leaves the files alone |
| Upload.UploadSuccess | init_chi.go:146-184 | a success inserts one row under the hash of the whole source, holding point(lon, lat), the tag, the description and either the local URL or the unchanged remote one, and returns its id; a local upload has moved the whole source to the file named by the hash, and a remote one leaves the files alone |
| Upload.TagOutcomeIrrelevant | init_chi.go:180-184 | the outcome of the tag insert changes nothing but the tag set |
| Upload.LocalExtractFailureKeepsTemp | init_chi.go:138-144 | a failed extraction reaches neither rename nor insert, and the temporary file stays behind with what the tee wrote to it |
| Upload.LocalRenameFailureRemovesTemp | init_chi.go:146-151 | a failed rename removes the temporary file and inserts nothing |
| Upload.AsWrittenInsertFailureRemovesHashFile | init_chi.go:169-178 | a failed insert removes the file named by the hash, in both modes, and leaves the rows unchanged |
| Upload.DuplicateLocalUploadOrphansRecord | init_chi.go:169-178 | re-uploading stored content fails the unique-hash insert and deletes the earlier row's file, so a row is left without its file |
| Upload.DuplicateRemoteUploadOrphansRecord | init_chi.go:154-178 | a remote upload of content stored locally wrote no file, yet its failed insert deletes the earlier row's file |
| Upload.DuplicateUploadUsesId | init_chi.go:167-178 | a duplicate upload in either mode is refused on the unique hash, leaves the rows unchanged and still uses up one id |
| Upload.ExtractFailureLeaksTemp | init_chi.go:138-144 | starting from consistent stores, a failed extraction leaves a file that no row owns |
| Upload.LocalUrlIsNotWeb | init_chi.go:153-156 | a local URL never has an http or https scheme, so no remote row can pose as a local one |
| Upload.LowerPrefixDependsOnHead | init_chi.go:156 | whether the lower-cased URL starts with a scheme prefix depends only on its first characters, so the scheme test ignores the rest of the URL |
| Upload.CorrectedLocalCommit | init_chi.go:146-178 | with the corrected cleanup, the insert after a rename restores consistency whether it succeeds or fails |
| Upload.CorrectedLocalInsertRefused | init_chi.go:167-177 | with the corrected cleanup, a refused insert after a rename removes the staged file only when no row owns it, so consistency holds |
| Upload.CorrectedLocalInsertDone | init_chi.go:146-172 | a successful insert after a rename adds a row that owns the renamed file, so consistency holds |
| Upload.CorrectedRemoteCommit | init_chi.go:159-178 | with the corrected cleanup, the insert of a remote upload keeps consistency |
| Upload.CorrectedUploadPreservesConsistency | init_chi.go:115-185 | with the corrected cleanup, every upload step keeps every local row backed by its file and every file owned by a row |
| Upload.RowById | init_chi.go:208-213 | the lookup by id finds nothing exactly when no row has that id, and otherwise a stored row with that id |
| Upload.UploadKeepsIdsBelowNext | init_chi.go:167-178 | every upload step, under either cleanup, keeps every stored id below the sequence's next value |
| Upload.NewIdFindsNewRow | init_chi.go:167-178 | after a success, the lookup by the returned id finds exactly the new row, since no earlier row can carry that id |
| Upload.UploadThenLookup | init_chi.go:167-224 | from stores whose ids lie below the sequence, the lookup of a freshly created id, answered from the stored rows, returns the extracted coordinate, the tag, the description and a 40-digit hex hash; the tag comes back equal only in the model, since the `char(32)` column returns it blank-padded |
| Upload.ShadowedPrefixRunsHostIntoHash | init_chi.go:153 | with the empty package prefix, the stored URL is the bare hash and the rewrite joins host and hash with no separator |
| Upload.CleanPrefixSeparatesHost | init_chi.go:43 | with the absolute prefix computed at line 43, the stored URL is a path ending in "/" and the hash, and the rewrite puts "/" right after the host |

## Left out

- Routing, the static file server, `ListAllTags`, multipart parsing, JSON encoding and HTTP status writing are framework plumbing. Multipart parsing and `FormFile` appear only as oracle outcomes.
- The temporary file `dst` from `ioutil.TempFile` (init_chi.go:138) is never closed, so each local upload leaks a file descriptor; descriptors are not modelled.
- `http.Get` is network I/O. The response body is an oracle byte sequence or a failure. A failure usually leaves the response nil, and the handler then dereferences it at init_chi.go:157; the model ends that request with nothing changed. When the redirect limit is hit, the response is non-nil with its body already closed; `saveImg` then fails on the read, and the model covers that case as a fetched body whose decoding fails, again with nothing changed. Closing the body is not modelled.
- The EXIF decoder, SHA-1, `url.ParseRequestURI`, `strconv.ParseFloat` and `strconv.Atoi` are foreign code. Each is an oracle or a function parameter.
- Records.GetImg: the id comes from the `strconv.Atoi` oracle, `None` for a non-numeric parameter and otherwise the value Atoi returns; the clamping of out-of-range numbers to the 64-bit bounds is the oracle's, not the model's.
- Upload.Commit: whether an insert that fails for a reason other than the duplicate hash had already drawn its id is an oracle outcome, since it depends on where Postgres stopped; the model promises only that such a failure uses up at most one id.
- Upload.HasWebScheme: `http.Get`'s scheme check is reduced to the prefixes `http://` and `https://` in any letter case; other URL syntax is not modelled.
- `float64` values are reals. IEEE rounding, NaN and infinities are not modelled.
- Search.QuerySelectsViewport: Postgres's `<@` is stated as closed box containment over reals, with corners in either order. Float comparison and what `&&` means in the tag suffix are left out.
- Upload.UploadThenLookup: the tag read back equals the uploaded one only in the model; the `char(32)` column (init_pg.go:55) returns it blank-padded to 32 characters.
- Column widths are folded into the insert's oracle outcome. These are `char(32)` for tags, `varchar(512)` for descriptions and `varchar(2048)` for URLs. The blank padding of `char(32)` on read is not modelled.
- The tag insert at init_chi.go:180-182 is an oracle outcome. Its `VALUES $1` lacks the parentheses PostgreSQL's grammar requires, so it probably always fails; the handler ignores the outcome either way.
- `os.Remove` errors are ignored by the handler. The model treats every removal as done.
- Write errors on an existing temporary file are not modelled. A failed `ioutil.TempFile` is modelled: its error is ignored at line 138, and the nil file then fails the tee.
- Upload.LocalUrl: models `path.Join(prefix, hash)` only for an empty or already clean prefix. Those are the only values the handler can hold.
- The request scheme is a parameter. For ordinary server requests Go leaves `r.URL.Scheme` empty; the model does not decide that.
- `toObjs`'s `rows.Close`, and the ignored query error at init_chi.go:100, are left out. A failed query is an oracle returning no rows.
- Pool creation and schema bootstrap in init_pg.go are I/O. Only the unique `hash` (init_pg.go:58) and `tag` (init_pg.go:71) constraints enter the model. They appear as the map key of the rows and as the tag set.
- Concurrent uploads and the atomicity of rename are not modelled. Each upload is one step.
- SaveImage.SaveImg: "the hasher is never finalised" is represented by the empty returned hash. The hasher's internal state is not a separate observable.

## Findings

| source | as written | input that shows it | evidently intended | confidence | as-written member | corrected member |
|---|---|---|---|---|---|---|
| init_chi.go:174-175 | a failed insert removes the file named by the hash, even when an earlier row owns it | upload the same image twice as a form file; the second insert violates the unique hash | remove only a file this upload created and no row owns | high; not executed | Upload.DuplicateLocalUploadOrphansRecord | Upload.CorrectedUploadPreservesConsistency |
| init_chi.go:159-175 | in remote mode a failed insert also removes the file named by the hash, though this mode wrote none | upload an image as a form file, then the same bytes by URL | remote mode removes nothing | high; not executed | Upload.DuplicateRemoteUploadOrphansRecord | Upload.CorrectedUploadPreservesConsistency |
| init_chi.go:140-144 | a failed `saveImg` returns without removing the temporary file | upload a form file with no GPS tag | remove the temporary file before replying | high; not executed | Upload.ExtractFailureLeaksTemp | Upload.CorrectedUploadPreservesConsistency |
| init_chi.go:43 | `:=` declares a local, so the package prefix used at line 153 stays empty and the stored URL is the bare hash | any local upload, then a lookup; the URL reads `scheme://host` followed directly by the hash | store the URL under the static picture path computed at line 43 | medium; not executed; other files could assign the variable | Upload.ShadowedPrefixRunsHostIntoHash | Upload.CleanPrefixSeparatesHost |

=== FILE: common.dfy ===
/** Vocabulary shared by the whole model: optional values, bytes and the
    string prefix test that Go's `strings.HasPrefix` performs. */
module Common {

  /** A value that may be absent; stands for Go's `(value, err)` pairs whose
      error carries no information the model needs. */
  datatype Option<+T> = None | Some(value: T)

  /** Go's `byte`. */
  type byte = x: int | 0 <= x < 256

  /** `strings.HasPrefix(s, prefix)`. */
  predicate HasPrefix(s: string, prefix: string) {
    |prefix| <= |s| && s[..|prefix|] == prefix
  }

  /** `strings.HasSuffix(s, suffix)`. */
  predicate HasSuffix(s: string, suffix: string) {
    |suffix| <= |s| && s[|s| - |suffix|..] == suffix
  }

  /** ASCII lower-casing, the only case folding Go's URL parser applies to a scheme. */
  function LowerAscii(c: char): (l: char)
    ensures !('A' <= l <= 'Z')
    ensures ('a' <= l <= 'z') <==> ('a' <= c <= 'z' || 'A' <= c <= 'Z')
  {
    if 'A' <= c <= 'Z' then (c as int + 32) as char else c
  }

  /** Lower-casing twice is lower-casing once. */
  lemma LowerAsciiIdempotent(c: char)
    ensures LowerAscii(LowerAscii(c)) == LowerAscii(c)
  {
  }
}

=== FILE: hex.dfy ===
/** Go's `encoding/hex`: `EncodeToString` writes two lower-case digits per
    byte, high nibble first; `DecodeString` accepts either case. */
module Hex {
  import opened Common

  /** The characters `EncodeToString` can produce. */
  predicate IsLowerHexChar(c: char) {
    '0' <= c <= '9' || 'a' <= c <= 'f'
  }

  predicate IsLowerHex(s: string) {
    forall i :: 0 <= i < |s| ==> IsLowerHexChar(s[i])
  }

  /** `fromHexChar`: the value of one hex digit, in either case. */
  function DigitValue(c: char): (v: Option<int>)
    ensures v.Some? ==> 0 <= v.value < 16
    ensures v.Some? <==> IsLowerHexChar(c) || 'A' <= c <= 'F'
  {
    if '0' <= c <= '9' then Some(c as int - '0' as int)
    else if 'a' <= c <= 'f' then Some(c as int - 'a' as int + 10)
    else if 'A' <= c <= 'F' then Some(c as int - 'A' as int + 10)
    else None
  }

  /** The digit `EncodeToString` writes for a nibble; `DigitValue` reads it back. */
  function DigitChar(n: int): (c: char)
    requires 0 <= n < 16
    ensures IsLowerHexChar(c)
    ensures DigitValue(c) == Some(n)
  {
    if n < 10 then ('0' as int + n) as char else ('a' as int + n - 10) as char
  }

  function EncodeToString(src: seq<byte>): (s: string)
    ensures |s| == 2 * |src|
    ensures IsLowerHex(s)
  {
    if src == [] then []
    else [DigitChar(src[0] / 16), DigitChar(src[0] % 16)] + EncodeToString(src[1..])
  }

  /** `None` for an odd length or a character that is not a hex digit. */
  function DecodeString(s: string): (r: Option<seq<byte>>)
    ensures r.Some? ==> |s| == 2 * |r.value|
    ensures |s| % 2 == 1 ==> r.None?
  {
    if |s| == 0 then Some([])
    else if |s| == 1 then None
    else
      match (DigitValue(s[0]), DigitValue(s[1]), DecodeString(s[2..]))
      case (Some(hi), Some(lo), Some(rest)) => Some([hi * 16 + lo] + rest)
      case _ => None
  }

  /** Decoding an encoding gives back the bytes. */
  lemma {:induction false} DecodeEncode(src: seq<byte>)
    ensures DecodeString(EncodeToString(src)) == Some(src)
  {
    if src != [] {
      var s := EncodeToString(src);
      DecodeEncode(src[1..]);
      assert s[2..] == EncodeToString(src[1..]);
      assert src == [src[0] / 16 * 16 + src[0] % 16] + src[1..];
    }
  }

  /** Every even-length lower-case hex string is the encoding of what it decodes to. */
  lemma {:induction false} EncodeDecode(s: string)
    requires IsLowerHex(s) && |s| % 2 == 0
    ensures DecodeString(s).Some?
    ensures EncodeToString(DecodeString(s).value) == s
  {
    if |s| > 0 {
      EncodeDecode(s[2..]);
      var hi, lo := DigitValue(s[0]).value, DigitValue(s[1]).value;
      var rest := DecodeString(s[2..]).value;
      var b := [hi * 16 + lo] + rest;
      assert DecodeString(s) == Some(b);
      assert b[0] / 16 == hi && b[0] % 16 == lo;
      assert b[1..] == rest;
      assert s == [s[0], s[1]] + s[2..];
    }
  }

  /** Distinct byte strings never share a hex encoding. */
  lemma EncodeInjective(a: seq<byte>, b: seq<byte>)
    ensures EncodeToString(a) == EncodeToString(b) ==> a == b
  {
    DecodeEncode(a);
    DecodeEncode(b);
  }
}

=== FILE: records.dfy ===
/** The `Point` and `Img` records (init_chi.go:187-200), the rows they are
    read from, and the two read paths that map rows to records: `toObjs`
    (init_chi.go:267-292, used by the search) and `GetImg`
    (init_chi.go:202-235, the point lookup). Both rewrite a stored URL that
    is not already absolute into `scheme://host<url>`. */
module Records {
  import opened Common

  datatype Point = Point(lat: real, lon: real)

  /** The externally shaped record; `addedAt` stands for the stored UTC
      timestamp. */
  datatype Img = Img(id: int, loc: Point, tag: string, dsc: string, url: string, hash: string, addedAt: int)

  /** A Postgres `point`: `X` holds the longitude and `Y` the latitude, as the
      insert `point($1, $2)` with `lon, lat` stores them. */
  datatype PgPoint = PgPoint(x: real, y: real)

  /** One stored row of the image table. */
  datatype Row = Row(id: int, loc: PgPoint, tag: string, dsc: string, url: string, hash: string, addedAt: int)

  /** What one `rows.Scan` yields. */
  datatype Scan = Scanned(row: Row) | ScanError

  /** The URL rewrite of init_chi.go:222-224 and 284-286: a URL that starts
      with `"http"` is kept, any other is prefixed with the request's scheme
      and host. */
  function NormaliseUrl(scheme: string, host: string, url: string): (r: string)
    ensures HasSuffix(r, url)
    ensures HasPrefix(url, "http") ==> r == url
    ensures !HasPrefix(url, "http") ==> r == scheme + "://" + host + url
    ensures HasPrefix(r, "http") || HasPrefix(r, scheme + "://" + host)
  {
    if HasPrefix(url, "http") then url else scheme + "://" + host + url
  }

  /** Rewriting twice is rewriting once exactly when the URL is already
      absolute or the rewrite itself makes one (the scheme starts with
      `"http"`); with any other scheme each rewrite prefixes again. */
  lemma {:induction false} NormaliseIdempotentIff(scheme: string, host: string, url: string)
    ensures NormaliseUrl(scheme, host, NormaliseUrl(scheme, host, url)) == NormaliseUrl(scheme, host, url)
      <==> HasPrefix(url, "http") || HasPrefix(scheme, "http")
  {
    var once := NormaliseUrl(scheme, host, url);
    if !HasPrefix(url, "http") {
      assert once == scheme + "://" + host + url;
      if HasPrefix(scheme, "http") {
        assert once[..4] == scheme[..4];
      } else {
        if |scheme| >= 4 {
          assert once[..4] == scheme[..4];
        } else {
          assert once[|scheme|] == ':';
          assert HasPrefix(once, "http") ==> once[|scheme|] == "http"[|scheme|];
        }
        assert |NormaliseUrl(scheme, host, once)| > |once|;
      }
    }
  }

  /** One row as a record: longitude from `X`, latitude from `Y`, the URL
      rewritten, and `id` as the caller sets it. */
  function ToImg(row: Row, id: int, scheme: string, host: string): (img: Img)
    ensures img.loc.lon == row.loc.x && img.loc.lat == row.loc.y
    ensures img.id == id
    ensures img.tag == row.tag && img.dsc == row.dsc && img.hash == row.hash && img.addedAt == row.addedAt
    ensures img.url == NormaliseUrl(scheme, host, row.url)
  {
    Img(id, Point(row.loc.y, row.loc.x), row.tag, row.dsc, NormaliseUrl(scheme, host, row.url), row.hash, row.addedAt)
  }

  /** `toObjs`: its records, and whether a scan failed. */
  datatype Mapped = Mapped(imgs: seq<Img>, err: bool)

  /** How many rows scan before the first scan error: the reference for
      where `toObjs` stops. */
  function ScannedPrefix(rows: seq<Scan>): (n: nat)
    ensures n <= |rows|
    ensures forall i :: 0 <= i < n ==> rows[i].Scanned?
    ensures n < |rows| ==> rows[n].ScanError?
  {
    if rows == [] || rows[0].ScanError? then 0
    else
      var n := ScannedPrefix(rows[1..]);
      assert forall i :: 1 <= i < 1 + n ==> rows[i] == rows[1..][i - 1];
      1 + n
  }

  /** `toObjs(rows, r)`: maps scanned rows in order, never sets `Id`, and
      stops at the first scan error, returning what it has collected. */
  function ToObjs(rows: seq<Scan>, scheme: string, host: string): (m: Mapped)
    ensures |m.imgs| == ScannedPrefix(rows)
    ensures m.err <==> |m.imgs| < |rows|
  {
    if rows == [] then Mapped([], false)
    else if rows[0].ScanError? then Mapped([], true)
    else
      var tail := ToObjs(rows[1..], scheme, host);
      Mapped([ToImg(rows[0].row, 0, scheme, host)] + tail.imgs, tail.err)
  }

  /** The search mapping keeps the rows' order: its `i`-th record is the
      `i`-th row as a record with id 0. */
  lemma {:induction false} ToObjsMapsInOrder(rows: seq<Scan>, scheme: string, host: string)
    ensures var m := ToObjs(rows, scheme, host);
      forall i :: 0 <= i < |m.imgs| ==> m.imgs[i] == ToImg(rows[i].row, 0, scheme, host)
  {
    if rows != [] && rows[0].Scanned? {
      var m := ToObjs(rows, scheme, host);
      var tail := ToObjs(rows[1..], scheme, host);
      ToObjsMapsInOrder(rows[1..], scheme, host);
      assert m.imgs == [ToImg(rows[0].row, 0, scheme, host)] + tail.imgs;
      forall i | 1 <= i < |m.imgs|
        ensures m.imgs[i] == ToImg(rows[i].row, 0, scheme, host)
      {
        assert m.imgs[i] == tail.imgs[i - 1];
        assert rows[i] == rows[1..][i - 1];
      }
    }
  }

  /** The search mapping reports an error exactly when some row fails to
      scan; the records before the failing row are still returned. */
  lemma ToObjsErrorIffScanError(rows: seq<Scan>, scheme: string, host: string)
    ensures var m := ToObjs(rows, scheme, host);
      && (m.err <==> exists i :: 0 <= i < |rows| && rows[i].ScanError?)
      && (m.err ==> rows[|m.imgs|].ScanError?)
      && (!m.err ==> |m.imgs| == |rows|)
  {
    var m := ToObjs(rows, scheme, host);
    if m.err {
      assert rows[|m.imgs|].ScanError?;
    }
  }

  /** Every record `toObjs` produces has `id` 0 and an image URL that is
      absolute: it either starts with `"http"` or with the request's scheme
      and host. */
  lemma ToObjsNeverSetsId(rows: seq<Scan>, scheme: string, host: string)
    ensures forall img :: img in ToObjs(rows, scheme, host).imgs ==>
      && img.id == 0
      && (HasPrefix(img.url, "http") || HasPrefix(img.url, scheme + "://" + host))
  {
    var m := ToObjs(rows, scheme, host);
    ToObjsMapsInOrder(rows, scheme, host);
    forall img | img in m.imgs
      ensures img.id == 0 && (HasPrefix(img.url, "http") || HasPrefix(img.url, scheme + "://" + host))
    {
      var i :| 0 <= i < |m.imgs| && m.imgs[i] == img;
      assert img == ToImg(rows[i].row, 0, scheme, host);
    }
  }

  /** `GetImg`'s reply. */
  datatype Lookup = NotFound | Found(img: Img)

  /** `GetImg`: `idParam` is what `strconv.Atoi` makes of the path
      parameter, whose error is ignored: `None` for a parameter that is not
      a number, which Atoi returns as 0, so id 0 is looked up; `Some(n)`
      otherwise, where for a number out of the 64-bit range `n` is the bound
      Atoi clamps it to. `fetch` is the row the store returns for an id, if
      the query and scan succeed. */
  function GetImg(idParam: Option<int>, fetch: int -> Option<Row>, scheme: string, host: string): (r: Lookup)
    ensures var id := if idParam.Some? then idParam.value else 0;
      && (r.NotFound? <==> fetch(id).None?)
      && (r.Found? ==> r.img == ToImg(fetch(id).value, id, scheme, host))
  {
    var id := if idParam.Some? then idParam.value else 0;
    match fetch(id)
    case None => NotFound
    case Some(row) => Found(ToImg(row, id, scheme, host))
  }

  /** The point lookup and the search produce the same record for the same
      row, except that only the lookup fills in `id`. */
  lemma GetImgAgreesWithToObjs(id: int, row: Row, scheme: string, host: string)
    ensures var found := GetImg(Some(id), _ => Some(row), scheme, host);
      var listed := ToObjs([Scanned(row)], scheme, host);
      && found.Found? && listed.imgs != []
      && found.img == listed.imgs[0].(id := id)
  {
  }
}

=== FILE: saveimg.dfy ===
/** `saveImg` (init_chi.go:242-264): one pass over an image stream that feeds
    the EXIF decoder through a tee whose other side writes every byte read
    both to the caller's sink and to a SHA-1 hasher. After the decoder has
    found a coordinate the rest of the stream is drained through the same
    tee, and only then is the hasher finalised and hex-encoded.

    The EXIF decoder and SHA-1 are foreign code: the decoder is an oracle
    that pulls some prefix of the stream and then yields a result, and the
    digest is a function parameter whose results are `Size` bytes long. */
module SaveImage {
  import opened Common
  import Hex

  /** `sha1.Size`. */
  const Size := 20

  type Sha1Sum = s: seq<byte> | |s| == Size witness seq(Size, _ => 0)

  /** The buffer `ioutil.Discard`'s `ReadFrom` reads with, which `io.Copy`
      uses when draining into it. */
  const DiscardBufferSize := 8 * 1024

  /** What `exif.Decode` and then `LatLong` make of the stream. */
  datatype Geotag = DecodeError | NoLatLong | LatLong(lat: real, lon: real)

  /** The decoder's behaviour: how many bytes it pulls through the tee before
      it returns, and what it returns. */
  datatype ExifParse = ExifParse(consumed: nat, result: Geotag)

  /** Whether the underlying reader fails while the rest is drained, and if
      so after how many further bytes. */
  datatype DrainFault = NoFault | FailsAfter(n: nat)

  datatype SaveError = DecodeFailed | LatLongFailed | DrainFailed

  /** The named results of `saveImg` together with what its two tee
      consumers received: `written` went to the sink, `hashed` to the hasher. */
  datatype Saved = Saved(hash: string, lat: real, lon: real, err: Option<SaveError>,
                         written: seq<byte>, hashed: seq<byte>)

  /** A tee reader part way through its source. */
  datatype Tee = Tee(rest: seq<byte>, written: seq<byte>, hashed: seq<byte>)

  /** The tee has passed on exactly the bytes it has read, to both consumers. */
  predicate Coherent(t: Tee, input: seq<byte>) {
    t.written == t.hashed && t.written + t.rest == input
  }

  /** One `Read` of up to `n` bytes through the tee. */
  function TeeRead(t: Tee, n: nat): (t': Tee)
    ensures |t'.rest| == |t.rest| - Min(n, |t.rest|)
    ensures forall input :: Coherent(t, input) ==> Coherent(t', input)
  {
    var k := Min(n, |t.rest|);
    assert t.rest == t.rest[..k] + t.rest[k..];
    Tee(t.rest[k..], t.written + t.rest[..k], t.hashed + t.rest[..k])
  }

  function Min(a: int, b: int): int {
    if a <= b then a else b
  }

  /** `io.Copy(ioutil.Discard, tee)`: reads in `DiscardBufferSize` chunks until
      end of stream, or until the underlying reader fails. The flag tells
      whether the copy ended without error. */
  function Drain(t: Tee, fault: DrainFault): (r: (Tee, bool))
    ensures forall input :: Coherent(t, input) ==> Coherent(r.0, input)
    ensures r.1 <==> fault.NoFault? || |t.rest| <= fault.n
    ensures r.1 ==> r.0.rest == []
    ensures !r.1 ==> |r.0.rest| == |t.rest| - fault.n
    decreases |t.rest|
  {
    if t.rest == [] then (t, true)
    else if fault.FailsAfter? && fault.n == 0 then (t, false)
    else
      var chunk := if fault.FailsAfter? then Min(DiscardBufferSize, fault.n) else DiscardBufferSize;
      var t' := TeeRead(t, chunk);
      var fault' := if fault.FailsAfter? then FailsAfter(fault.n - Min(chunk, |t.rest|)) else NoFault;
      Drain(t', fault')
  }

  /** The number of bytes the decoder actually pulls from `input`. */
  function Parsed(input: seq<byte>, exif: ExifParse): nat {
    Min(exif.consumed, |input|)
  }

  /** `saveImg(img, dst)` on the stream `input`. */
  function SaveImg(input: seq<byte>, exif: ExifParse, fault: DrainFault, digest: seq<byte> -> Sha1Sum): (r: Saved)
    ensures r.written == r.hashed && r.written <= input
    ensures r.err.None? <==>
      exif.result.LatLong? && (fault.NoFault? || |input| - Parsed(input, exif) <= fault.n)
    ensures r.err.None? ==>
      && r.written == input
      && r.hash == Hex.EncodeToString(digest(input))
      && r.lat == exif.result.lat && r.lon == exif.result.lon
    ensures r.err.Some? ==> r.hash == ""
    ensures exif.result.DecodeError? ==> r.err == Some(DecodeFailed) && r.written == input[..Parsed(input, exif)]
    ensures exif.result.NoLatLong? ==> r.err == Some(LatLongFailed) && r.written == input[..Parsed(input, exif)]
    ensures exif.result.LatLong? && r.err.Some? ==> r.err == Some(DrainFailed)
  {
    var t := TeeRead(Tee(input, [], []), exif.consumed);
    assert Coherent(t, input);
    match exif.result
    case DecodeError => Saved("", 0.0, 0.0, Some(DecodeFailed), t.written, t.hashed)
    case NoLatLong => Saved("", 0.0, 0.0, Some(LatLongFailed), t.written, t.hashed)
    case LatLong(lat, lon) =>
      var (t', ok) := Drain(t, fault);
      assert Coherent(t', input);
      if !ok then Saved("", lat, lon, Some(DrainFailed), t'.written, t'.hashed)
      else Saved(Hex.EncodeToString(digest(t'.hashed)), lat, lon, None, t'.written, t'.hashed)
  }

  /** The returned hash is 40 lower-case hex digits that decode to the digest
      of the whole stream. */
  lemma HashIsHexDigest(input: seq<byte>, exif: ExifParse, fault: DrainFault, digest: seq<byte> -> Sha1Sum)
    requires SaveImg(input, exif, fault, digest).err.None?
    ensures var h := SaveImg(input, exif, fault, digest).hash;
      |h| == 2 * Size == 40 && Hex.IsLowerHex(h) && Hex.DecodeString(h) == Some(digest(input))
  {
    Hex.DecodeEncode(digest(input));
  }

  /** However much of the stream the decoder pulls, a successful run hands the
      same bytes to the sink and yields the same hash. */
  lemma ResultIgnoresParserConsumption(input: seq<byte>, exif1: ExifParse, exif2: ExifParse,
                                       digest: seq<byte> -> Sha1Sum)
    requires exif1.result == exif2.result && exif1.result.LatLong?
    ensures SaveImg(input, exif1, NoFault, digest) == SaveImg(input, exif2, NoFault, digest)
  {
  }

  /** Two successful runs over the same bytes agree on the hash, whatever the
      decoder did; so equal content always gets the same storage name. */
  lemma HashDeterministic(input: seq<byte>, exif1: ExifParse, fault1: DrainFault,
                          exif2: ExifParse, fault2: DrainFault, digest: seq<byte> -> Sha1Sum)
    requires SaveImg(input, exif1, fault1, digest).err.None?
    requires SaveImg(input, exif2, fault2, digest).err.None?
    ensures SaveImg(input, exif1, fault1, digest).hash == SaveImg(input, exif2, fault2, digest).hash
  {
  }
}

=== FILE: search.dfy ===
/** `Search` (init_chi.go:59-113): validates the four viewport coordinates in
    a fixed order, builds the SQL text and its argument list, runs the query
    and maps the rows with `toObjs`.

    `strconv.ParseFloat` is an oracle and floats are modelled as reals; the
    query text comes from `SqlText`. */
module Search {
  import opened Common
  import Records
  import opened SqlText

  /** The four query parameters, in the order `Search` checks them. */
  datatype Field = SwLon | SwLat | NeLon | NeLat

  function Rank(f: Field): nat {
    match f
    case SwLon => 0
    case SwLat => 1
    case NeLon => 2
    case NeLat => 3
  }

  /** The words each error message names its field by. */
  function Label(f: Field): string {
    match f
    case SwLon => "SW longitude"
    case SwLat => "SW latitude"
    case NeLon => "NE longitude"
    case NeLat => "NE latitude"
  }

  /** The body of the 400 reply for a value that does not parse. */
  function ErrorMessage(f: Field, value: string): string {
    "unexpected " + Label(f) + " value: " + value
  }

  /** `r.URL.Query().Get(...)` for each parameter; a missing one reads as "". */
  datatype Params = Params(swlon: string, swlat: string, nelon: string, nelat: string, tag: string)

  function Value(p: Params, f: Field): string {
    match f
    case SwLon => p.swlon
    case SwLat => p.swlat
    case NeLon => p.nelon
    case NeLat => p.nelat
  }

  /** A query argument: a parsed float or the tag text. */
  datatype Arg = Float(v: real) | Text(s: string)

  /** What `Search` makes of its parameters before running anything. */
  datatype Built = Invalid(field: Field, message: string) | Query(text: string, args: seq<Arg>)

  /** The validation and query building of init_chi.go:60-98. */
  function BuildSearch(p: Params, table: string, parseFloat: string -> Option<real>): (b: Built)
    ensures b.Invalid? <==>
      parseFloat(p.swlon).None? || parseFloat(p.swlat).None? || parseFloat(p.nelon).None? || parseFloat(p.nelat).None?
    ensures b.Invalid? ==>
      && parseFloat(Value(p, b.field)).None?
      && (forall f :: Rank(f) < Rank(b.field) ==> parseFloat(Value(p, f)).Some?)
      && b.message == ErrorMessage(b.field, Value(p, b.field))
    ensures b.Query? ==>
      && |b.args| >= 4
      && parseFloat(p.swlon).Some? && parseFloat(p.swlat).Some? && parseFloat(p.nelon).Some? && parseFloat(p.nelat).Some?
      && b.args[..4] == [Float(parseFloat(p.nelon).value), Float(parseFloat(p.nelat).value),
                         Float(parseFloat(p.swlon).value), Float(parseFloat(p.swlat).value)]
      && (p.tag == "" ==> |b.args| == 4)
      && (p.tag != "" ==> |b.args| == 5 && b.args[4] == Text(p.tag))
      && b.text == Render(QueryTokens(table, p.tag)) + ";"
  {
    var swx := parseFloat(p.swlon);
    if swx.None? then Invalid(SwLon, ErrorMessage(SwLon, p.swlon)) else
    var swy := parseFloat(p.swlat);
    if swy.None? then Invalid(SwLat, ErrorMessage(SwLat, p.swlat)) else
    var nex := parseFloat(p.nelon);
    if nex.None? then Invalid(NeLon, ErrorMessage(NeLon, p.nelon)) else
    var ney := parseFloat(p.nelat);
    if ney.None? then Invalid(NeLat, ErrorMessage(NeLat, p.nelat)) else
    var args := [Float(nex.value), Float(ney.value), Float(swx.value), Float(swy.value)];
    var text := Render(QueryTokens(table, p.tag)) + ";";
    if p.tag != "" then Query(text, args + [Text(p.tag)]) else Query(text, args)
  }

  /** Placeholders `$1..$n` appear in the text, in order, exactly for the
      `n` arguments: `$5` is there exactly when the tag argument is. */
  lemma PlaceholdersMatchArgs(p: Params, table: string, parseFloat: string -> Option<real>)
    requires BuildSearch(p, table, parseFloat).Query?
    ensures var b := BuildSearch(p, table, parseFloat);
      Numbers(QueryTokens(table, p.tag)) == seq(|b.args|, i => i + 1)
  {
    var b := BuildSearch(p, table, parseFloat);
    var n := if p.tag != "" then 5 else 4;
    assert |b.args| == n;
    QueryNumbers(table, p.tag);
    Iota(n);
  }

  /** `$1..$n` for the two argument counts a query can have. */
  lemma Iota(n: nat)
    requires n == 4 || n == 5
    ensures seq(n, i => i + 1) == if n == 5 then [1, 2, 3, 4, 5] else [1, 2, 3, 4]
  {
  }

  /** Postgres's `box` orders its corners, and `<@` includes the boundary. */
  predicate InBox(q: Records.PgPoint, c1: Records.PgPoint, c2: Records.PgPoint) {
    Between(q.x, c1.x, c2.x) && Between(q.y, c1.y, c2.y)
  }

  /** `v` lies between `a` and `b`, in whichever order they come. */
  predicate Between(v: real, a: real, b: real) {
    (a <= v <= b) || (b <= v <= a)
  }

  /** Whether a row's location satisfies `loc <@ box(point($1, $2), point($3, $4))`
      under the built arguments. */
  predicate Selects(args: seq<Arg>, q: Records.PgPoint)
    requires |args| >= 4 && forall i :: 0 <= i < 4 ==> args[i].Float?
  {
    InBox(q, Records.PgPoint(args[0].v, args[1].v), Records.PgPoint(args[2].v, args[3].v))
  }

  /** The box does not depend on which corner comes first. */
  lemma InBoxSymmetric(q: Records.PgPoint, c1: Records.PgPoint, c2: Records.PgPoint)
    ensures InBox(q, c1, c2) <==> InBox(q, c2, c1)
  {
  }

  /** A built query selects a location exactly when its longitude lies
      between the two longitudes and its latitude between the two latitudes;
      for a south-west corner that is really south-west of the north-east
      one, that is inclusive containment in `[swlon, nelon] x [swlat, nelat]`. */
  lemma QuerySelectsViewport(p: Params, table: string, parseFloat: string -> Option<real>, q: Records.PgPoint)
    requires BuildSearch(p, table, parseFloat).Query?
    ensures var b := BuildSearch(p, table, parseFloat);
      var (swx, swy) := (parseFloat(p.swlon).value, parseFloat(p.swlat).value);
      var (nex, ney) := (parseFloat(p.nelon).value, parseFloat(p.nelat).value);
      && |b.args| >= 4 && (forall i :: 0 <= i < 4 ==> b.args[i].Float?)
      && (Selects(b.args, q) <==> Between(q.x, swx, nex) && Between(q.y, swy, ney))
      && (swx <= nex && swy <= ney ==>
            (Selects(b.args, q) <==> swx <= q.x <= nex && swy <= q.y <= ney))
  {
    var b := BuildSearch(p, table, parseFloat);
    SelectsCorners(b.args, q, parseFloat(p.swlon).value, parseFloat(p.swlat).value,
                   parseFloat(p.nelon).value, parseFloat(p.nelat).value);
  }

  /** Any argument list that starts with the north-east and then the
      south-west corner selects by the box between them. */
  lemma SelectsCorners(args: seq<Arg>, q: Records.PgPoint, swx: real, swy: real, nex: real, ney: real)
    requires |args| >= 4 && args[..4] == [Float(nex), Float(ney), Float(swx), Float(swy)]
    ensures forall i :: 0 <= i < 4 ==> args[i].Float?
    ensures Selects(args, q) <==> Between(q.x, swx, nex) && Between(q.y, swy, ney)
    ensures swx <= nex && swy <= ney ==> (Selects(args, q) <==> swx <= q.x <= nex && swy <= q.y <= ney)
  {
    CornerArgs(args, swx, swy, nex, ney);
    assert Selects(args, q) == InBox(q, Records.PgPoint(nex, ney), Records.PgPoint(swx, swy));
    BoxFromCorners(q, swx, swy, nex, ney);
  }

  /** The first four arguments, one by one. */
  lemma CornerArgs(args: seq<Arg>, swx: real, swy: real, nex: real, ney: real)
    requires |args| >= 4 && args[..4] == [Float(nex), Float(ney), Float(swx), Float(swy)]
    ensures args[0] == Float(nex) && args[1] == Float(ney) && args[2] == Float(swx) && args[3] == Float(swy)
  {
    assert args[0] == args[..4][0] && args[1] == args[..4][1];
    assert args[2] == args[..4][2] && args[3] == args[..4][3];
  }

  /** The box from the north-east and south-west corners, coordinate by
      coordinate. */
  lemma BoxFromCorners(q: Records.PgPoint, swx: real, swy: real, nex: real, ney: real)
    ensures InBox(q, Records.PgPoint(nex, ney), Records.PgPoint(swx, swy))
        <==> Between(q.x, swx, nex) && Between(q.y, swy, ney)
    ensures swx <= nex && swy <= ney ==>
        (InBox(q, Records.PgPoint(nex, ney), Records.PgPoint(swx, swy))
         <==> swx <= q.x <= nex && swy <= q.y <= ney)
  {
  }

  /** The reply `Search` writes. */
  datatype Reply = BadRequest(message: string) | Json(imgs: seq<Records.Img>)

  /** The query `Search` sent to the store, if any, and its reply. */
  datatype SearchRun = SearchRun(issued: Option<Built>, reply: Reply)

  /** `Search`: `run` is the store, giving the scans of the rows a query
      returns (none when the query fails, whose error the source ignores);
      a scan error ends the list, and the records so far are still sent. */
  function SearchImgs(p: Params, table: string, parseFloat: string -> Option<real>,
                      run: Built -> seq<Records.Scan>, scheme: string, host: string): (s: SearchRun)
    ensures var b := BuildSearch(p, table, parseFloat);
      && (b.Invalid? ==> s.issued.None? && s.reply == BadRequest(b.message))
      && (b.Query? ==> s.issued == Some(b)
                       && s.reply == Json(Records.ToObjs(run(b), scheme, host).imgs))
  {
    var b := BuildSearch(p, table, parseFloat);
    if b.Invalid? then SearchRun(None, BadRequest(b.message))
    else SearchRun(Some(b), Json(Records.ToObjs(run(b), scheme, host).imgs))
  }

  /** When the store honours the query, returning only rows whose location
      the built box selects, every record `Search` replies with lies inside
      the viewport, coordinate by coordinate. */
  lemma SearchRepliesInsideViewport(p: Params, table: string, parseFloat: string -> Option<real>,
                                    run: Built -> seq<Records.Scan>, scheme: string, host: string)
    requires BuildSearch(p, table, parseFloat).Query?
    requires var b := BuildSearch(p, table, parseFloat);
      forall i :: 0 <= i < |run(b)| && run(b)[i].Scanned? ==> Selects(b.args, run(b)[i].row.loc)
    ensures var s := SearchImgs(p, table, parseFloat, run, scheme, host);
      var (swx, swy) := (parseFloat(p.swlon).value, parseFloat(p.swlat).value);
      var (nex, ney) := (parseFloat(p.nelon).value, parseFloat(p.nelat).value);
      && s.reply.Json?
      && forall img :: img in s.reply.imgs ==> Between(img.loc.lon, swx, nex) && Between(img.loc.lat, swy, ney)
  {
    var b := BuildSearch(p, table, parseFloat);
    var rows := run(b);
    var m := Records.ToObjs(rows, scheme, host);
    Records.ToObjsMapsInOrder(rows, scheme, host);
    var (swx, swy) := (parseFloat(p.swlon).value, parseFloat(p.swlat).value);
    var (nex, ney) := (parseFloat(p.nelon).value, parseFloat(p.nelat).value);
    forall img | img in m.imgs
      ensures Between(img.loc.lon, swx, nex) && Between(img.loc.lat, swy, ney)
    {
      var i :| 0 <= i < |m.imgs| && m.imgs[i] == img;
      assert rows[i].Scanned?;
      var q := rows[i].row.loc;
      assert img == Records.ToImg(rows[i].row, 0, scheme, host);
      QuerySelectsViewport(p, table, parseFloat, q);
    }
  }
}

=== FILE: sqltext.dfy ===
/** The SQL text `Search` sends (init_chi.go:88-90 and 96), as a sequence of
    literal pieces and `$n` placeholders. Rendering the tokens gives the
    source's text exactly (`RenderMatchesSource`); keeping the placeholders
    apart lets the model count them without reasoning about long string
    literals. The table name `TB_IMG` is a parameter. */
module SqlText {

  datatype Token = Sql(text: string) | Placeholder(n: nat)

  /** The decimal digits of `n`. */
  function Decimal(n: nat): (s: string)
    ensures |s| >= 1
    decreases n
  {
    var d := [('0' as int + n % 10) as char];
    if n < 10 then d else Decimal(n / 10) + d
  }

  function TokenText(t: Token): string {
    match t
    case Sql(text) => text
    case Placeholder(n) => "$" + Decimal(n)
  }

  function Render(ts: seq<Token>): string {
    if ts == [] then "" else TokenText(ts[0]) + Render(ts[1..])
  }

  /** The placeholder numbers of a token sequence, in order. */
  function Numbers(ts: seq<Token>): seq<nat> {
    if ts == [] then []
    else (if ts[0].Placeholder? then [ts[0].n] else []) + Numbers(ts[1..])
  }

  /** `SELECT ... WHERE loc <@ box(point($1, $2), point($3, $4))`. */
  function SelectTokens(table: string): seq<Token> {
    [Sql("SELECT loc, tag, dsc, url, hash, added_at\n\tFROM " + table + "\n\tWHERE loc <@ box(point(")]
    + PointArgs(1, 2) + [Sql("), point(")] + PointArgs(3, 4) + [Sql("))")]
  }

  /** The two arguments of `point($a, $b)`. */
  function PointArgs(a: nat, b: nat): seq<Token> {
    [Placeholder(a), Sql(", "), Placeholder(b)]
  }

  /** The suffix appended when a tag is given; only its text is modelled. */
  const TagTokens: seq<Token> := [Sql(" && tag="), Placeholder(5)]

  function QueryTokens(table: string, tag: string): seq<Token> {
    SelectTokens(table) + (if tag != "" then TagTokens else [])
  }

  lemma {:induction false} RenderAppend(a: seq<Token>, b: seq<Token>)
    ensures Render(a + b) == Render(a) + Render(b)
  {
    if a == [] {
      assert a + b == b;
    } else {
      var ab := a + b;
      assert ab[0] == a[0];
      assert ab[1..] == a[1..] + b;
      RenderAppend(a[1..], b);
      calc {
        Render(ab);
        TokenText(a[0]) + Render(a[1..] + b);
        TokenText(a[0]) + (Render(a[1..]) + Render(b));
        (TokenText(a[0]) + Render(a[1..])) + Render(b);
      }
    }
  }

  lemma {:induction false} NumbersAppend(a: seq<Token>, b: seq<Token>)
    ensures Numbers(a + b) == Numbers(a) + Numbers(b)
  {
    if a == [] {
      assert a + b == b;
    } else {
      var ab := a + b;
      assert ab[0] == a[0];
      assert ab[1..] == a[1..] + b;
      NumbersAppend(a[1..], b);
    }
  }

  lemma Cons(t: Token, ts: seq<Token>)
    ensures Render([t] + ts) == TokenText(t) + Render(ts)
    ensures Numbers([t] + ts) == (if t.Placeholder? then [t.n] else []) + Numbers(ts)
  {
    assert ([t] + ts)[0] == t;
    assert ([t] + ts)[1..] == ts;
  }

  lemma PointArgsText(a: nat, b: nat)
    ensures Render(PointArgs(a, b)) == "$" + Decimal(a) + ", " + "$" + Decimal(b)
    ensures Numbers(PointArgs(a, b)) == [a, b]
  {
    var last := [Placeholder(b)];
    var rest := [Sql(", ")] + last;
    Single(Placeholder(b));
    Cons(Sql(", "), last);
    Cons(Placeholder(a), rest);
    assert PointArgs(a, b) == [Placeholder(a)] + rest;
  }

  /** `point($1, $2)` and `point($3, $4)`, as text. */
  lemma PointArgsDigits()
    ensures Render(PointArgs(1, 2)) == "$1, $2"
    ensures Render(PointArgs(3, 4)) == "$3, $4"
  {
    assert Decimal(1) == "1" && Decimal(2) == "2" && Decimal(3) == "3" && Decimal(4) == "4";
    PointArgsText(1, 2);
    PointArgsText(3, 4);
  }

  lemma Single(t: Token)
    ensures Render([t]) == TokenText(t)
    ensures Numbers([t]) == if t.Placeholder? then [t.n] else []
  {
    Cons(t, []);
    assert [t] + [] == [t];
  }

  /** Rendering and numbering distribute over five concatenated pieces. */
  lemma Distribute5(a: seq<Token>, b: seq<Token>, c: seq<Token>, d: seq<Token>, e: seq<Token>)
    ensures Render(a + b + c + d + e) == Render(a) + Render(b) + Render(c) + Render(d) + Render(e)
    ensures Numbers(a + b + c + d + e) == Numbers(a) + Numbers(b) + Numbers(c) + Numbers(d) + Numbers(e)
  {
    RenderAppend(a, b);
    RenderAppend(a + b, c);
    RenderAppend(a + b + c, d);
    RenderAppend(a + b + c + d, e);
    NumbersAppend(a, b);
    NumbersAppend(a + b, c);
    NumbersAppend(a + b + c, d);
    NumbersAppend(a + b + c + d, e);
  }

  /** Rendering the placeholder tail after any head text `h`. */
  lemma RenderAfterHead(h: string)
    ensures Render([Sql(h)] + PointArgs(1, 2) + [Sql("), point(")] + PointArgs(3, 4) + [Sql("))")])
      == h + "$1, $2" + "), point(" + "$3, $4" + "))"
  {
    var mid, tail := Sql("), point("), Sql("))");
    Distribute5([Sql(h)], PointArgs(1, 2), [mid], PointArgs(3, 4), [tail]);
    Single(Sql(h));
    Single(mid);
    Single(tail);
    PointArgsDigits();
  }

  /** The rendering of the select tokens, piece by piece. */
  lemma SelectRenderPieces(table: string)
    ensures Render(SelectTokens(table))
      == "SELECT loc, tag, dsc, url, hash, added_at\n\tFROM " + table + "\n\tWHERE loc <@ box(point("
         + "$1, $2" + "), point(" + "$3, $4" + "))"
  {
    RenderAfterHead("SELECT loc, tag, dsc, url, hash, added_at\n\tFROM " + table + "\n\tWHERE loc <@ box(point(");
  }

  lemma SelectRender(table: string)
    ensures Render(SelectTokens(table))
      == "SELECT loc, tag, dsc, url, hash, added_at\n\tFROM " + table
         + "\n\tWHERE loc <@ box(point($1, $2), point($3, $4))"
  {
    SelectRenderPieces(table);
    WhereSplit();
  }

  lemma WhereSplit()
    ensures "\n\tWHERE loc <@ box(point($1, $2), point($3, $4))"
      == "\n\tWHERE loc <@ box(point(" + ("$1, $2" + "), point(" + "$3, $4" + "))")
  {
  }

  lemma SelectNumbers(table: string)
    ensures Numbers(SelectTokens(table)) == [1, 2, 3, 4]
  {
    var h := "SELECT loc, tag, dsc, url, hash, added_at\n\tFROM " + table + "\n\tWHERE loc <@ box(point(";
    var mid, tail := Sql("), point("), Sql("))");
    Distribute5([Sql(h)], PointArgs(1, 2), [mid], PointArgs(3, 4), [tail]);
    PointArgsText(1, 2);
    PointArgsText(3, 4);
    Single(Sql(h));
    Single(mid);
    Single(tail);
  }

  /** The rendered text is exactly the source's literal query text, and the
      tag suffix is exactly `" && tag=$5"`. */
  lemma RenderMatchesSource(table: string)
    ensures Render(SelectTokens(table))
      == "SELECT loc, tag, dsc, url, hash, added_at\n\tFROM " + table
         + "\n\tWHERE loc <@ box(point($1, $2), point($3, $4))"
    ensures Render(TagTokens) == " && tag=$5"
  {
    SelectRender(table);
    assert Decimal(5) == "5";
    Single(Placeholder(5));
    Cons(Sql(" && tag="), [Placeholder(5)]);
    assert TagTokens == [Sql(" && tag=")] + [Placeholder(5)];
  }

  /** The whole text the search sends, before its `";"`: the select text,
      followed by `" && tag=$5"` exactly when a tag is given. */
  lemma QueryText(table: string, tag: string)
    ensures Render(QueryTokens(table, tag))
      == "SELECT loc, tag, dsc, url, hash, added_at\n\tFROM " + table
         + "\n\tWHERE loc <@ box(point($1, $2), point($3, $4))"
         + (if tag != "" then " && tag=$5" else "")
  {
    RenderMatchesSource(table);
    RenderAppend(SelectTokens(table), if tag != "" then TagTokens else []);
  }

  /** The placeholders of the query are `$1..$4`, followed by `$5` exactly
      when a tag is given. */
  lemma QueryNumbers(table: string, tag: string)
    ensures Numbers(QueryTokens(table, tag)) == if tag != "" then [1, 2, 3, 4, 5] else [1, 2, 3, 4]
  {
    SelectNumbers(table);
    if tag != "" {
      NumbersAppend(SelectTokens(table), TagTokens);
      Single(Placeholder(5));
      Cons(Sql(" && tag="), [Placeholder(5)]);
      assert TagTokens == [Sql(" && tag=")] + [Placeholder(5)];
    } else {
      assert QueryTokens(table, tag) == SelectTokens(table);
    }
  }
}

=== FILE: upload.dfy ===
/** `UploadImg` (init_chi.go:115-185) as one step over an abstract world:
    the files in the storage root, the image table keyed by its unique
    `hash` column (init_pg.go:58) and the tag table (a set, since `tag` is
    its primary key, init_pg.go:71). Every foreign call the handler makes
    is an oracle outcome.

    The cleanup is a parameter: `AsWritten` is what the handler does,
    `Corrected` is the compensation that keeps file storage and rows
    consistent. The lemmas show
    where the first breaks the consistency of the two stores and that the
    second keeps it. */
module Upload {
  import opened Common
  import Hex
  import opened SaveImage
  import Records

  /** The storage root (file name to content), the image rows by hash, the
      tag table, and the next value of the `bigserial` id sequence. */
  datatype World = World(files: map<string, seq<byte>>, images: map<string, Records.Row>,
                         tags: set<string>, nextId: int)

  /** The form values `tag`, `dsc` and `url`. */
  datatype Request = Request(tag: string, dsc: string, url: string)

  /** The outcome of each foreign call the handler makes. */
  datatype Oracles = Oracles(
    formOk: bool,               // r.ParseMultipartForm
    urlParses: bool,            // url.ParseRequestURI(URL) succeeds, i.e. chkImgURL
    img: Option<seq<byte>>,     // r.FormFile("img")
    tempSuffix: Option<string>, // ioutil.TempFile(_PIC_PATH, "new*"): the random part of the name
    fetch: Option<seq<byte>>,   // http.Get(URL): the response body
    exif: ExifParse,            // the EXIF decoder on the stream
    drain: DrainFault,          // the underlying reader while the rest is drained
    renameOk: bool,             // os.Rename
    insertOk: bool,             // the image insert, apart from the hash uniqueness the model decides
    failedInsertDrawsId: bool,  // a failed insert, other than on the hash, had already drawn an id
    tagInsertOk: bool,          // the tag insert
    now: int)                   // the `added_at` default

  datatype UploadError = BadForm | MissingImage | ExtractFailed | RenameFailed | InsertFailed | FetchAborted

  /** The reply: the new id, or an error. */
  datatype Response = Created(id: int) | Failed(err: UploadError)

  datatype Step = Step(response: Response, world: World)

  /** Which cleanup the step performs. */
  datatype Policy = AsWritten | Corrected

  /** The name `ioutil.TempFile` gives for the pattern `"new*"`. */
  function TempName(suffix: string): string {
    "new" + suffix
  }

  /** `path.Join(prefix, hash)` for a prefix that is empty or already clean,
      as every result of `path.Join("/", ...)` is. */
  function LocalUrl(prefix: string, hash: string): string {
    if prefix == "" then hash
    else if prefix[|prefix| - 1] == '/' then prefix + hash
    else prefix + "/" + hash
  }

  /** The URL prefixes the handler can be running with: the package variable
      at init_chi.go:36, which stays "" because init_chi.go:43 declares a
      new local, or the clean absolute path line 43 computes. */
  predicate ValidPrefix(prefix: string) {
    prefix == "" || prefix[0] == '/'
  }

  function Lower(s: string): (l: string)
    ensures |l| == |s|
    ensures forall i :: 0 <= i < |l| ==> !('A' <= l[i] <= 'Z')
  {
    seq(|s|, i requires 0 <= i < |s| => LowerAscii(s[i]))
  }

  /** Whether the lower-cased string starts with `p` depends only on the
      first `|p|` characters: the scheme test looks at nothing after them. */
  lemma LowerPrefixDependsOnHead(s: string, t: string, p: string)
    requires |p| <= |s| && |p| <= |t| && s[..|p|] == t[..|p|]
    ensures HasPrefix(Lower(s), p) <==> HasPrefix(Lower(t), p)
  {
    assert forall i :: 0 <= i < |p| ==> Lower(s)[i] == LowerAscii(s[i]) == LowerAscii(t[i]) == Lower(t)[i] by {
      forall i | 0 <= i < |p|
        ensures Lower(s)[i] == LowerAscii(s[i]) == LowerAscii(t[i]) == Lower(t)[i]
      {
        assert s[i] == s[..|p|][i] && t[i] == t[..|p|][i];
      }
    }
    assert Lower(s)[..|p|] == Lower(t)[..|p|];
  }

  /** `http.Get` serves only the http and https schemes, in any letter case;
      for any other URL it returns an error. */
  predicate HasWebScheme(url: string) {
    HasPrefix(Lower(url), "http://") || HasPrefix(Lower(url), "https://")
  }

  /** The file named `h` in the storage root belongs to the image with hash
      `h`, whose URL is the local one. */
  predicate Owned(w: World, prefix: string, h: string) {
    h in w.images && w.images[h].url == LocalUrl(prefix, h)
  }

  /** The storage root after an image insert has failed. */
  function FilesAfterFailedInsert(policy: Policy, local: bool, w: World, prefix: string, hash: string): map<string, seq<byte>> {
    match policy
    case AsWritten => w.files - {hash}
    case Corrected => if local && !Owned(w, prefix, hash) then w.files - {hash} else w.files
  }

  /** The insert of init_chi.go:169-178 and the tag insert of 180-182.
      The `bigserial` default draws from its sequence before the unique
      index on `hash` rejects a duplicate, and sequence values are never
      given back, so a duplicate insert uses up an id. Whether another
      failure happened before or after the draw is an oracle outcome. */
  function Commit(policy: Policy, local: bool, w: World, prefix: string, req: Request, url: string,
                  saved: Saved, o: Oracles): (s: Step)
    ensures s.response.Failed? <==> saved.hash in w.images || !o.insertOk
    ensures s.response.Failed? ==>
      && s.response.err == InsertFailed
      && s.world.images == w.images && s.world.tags == w.tags
      && w.nextId <= s.world.nextId <= w.nextId + 1
      && (saved.hash in w.images ==> s.world.nextId == w.nextId + 1)
    ensures s.response.Created? ==>
      && s.response.id == w.nextId
      && s.world.nextId == w.nextId + 1
      && s.world.files == w.files
      && s.world.images == w.images[saved.hash := Records.Row(w.nextId, Records.PgPoint(saved.lon, saved.lat),
                                                              req.tag, req.dsc, url, saved.hash, o.now)]
      && |s.world.images| == |w.images| + 1
  {
    if saved.hash in w.images || !o.insertOk then
      var drawn := saved.hash in w.images || o.failedInsertDrawsId;
      var next := if drawn then w.nextId + 1 else w.nextId;
      Step(Failed(InsertFailed), w.(files := FilesAfterFailedInsert(policy, local, w, prefix, saved.hash), nextId := next))
    else
      var row := Records.Row(w.nextId, Records.PgPoint(saved.lon, saved.lat), req.tag, req.dsc, url, saved.hash, o.now);
      var tags := if o.tagInsertOk then w.tags + {req.tag} else w.tags;
      Step(Created(row.id), World(w.files, w.images[saved.hash := row], tags, w.nextId + 1))
  }

  /** The branch of init_chi.go:132-153: no parsable URL, so the image comes
      from the form and is staged in a temporary file. A failed
      `ioutil.TempFile` leaves `dst` a nil `*os.File`, whose writes fail, so
      the tee's first read fails and so does `saveImg`. */
  function UploadLocal(policy: Policy, w: World, prefix: string, req: Request, o: Oracles,
                       digest: seq<byte> -> Sha1Sum): (s: Step)
    ensures s.response.Failed? ==>
      && s.world.images == w.images && s.world.tags == w.tags
      && w.nextId <= s.world.nextId <= w.nextId + 1
      && (s.response.err != InsertFailed ==> s.world.nextId == w.nextId)
    ensures s.response.Created? ==>
      && s.response.id == w.nextId && s.world.nextId == w.nextId + 1
      && |s.world.images| == |w.images| + 1
  {
    if o.img.None? then Step(Failed(MissingImage), w)
    else if o.tempSuffix.None? then Step(Failed(ExtractFailed), w)
    else
      var temp := TempName(o.tempSuffix.value);
      var saved := SaveImg(o.img.value, o.exif, o.drain, digest);
      if saved.err.Some? then
        var files := match policy
          case AsWritten => w.files[temp := saved.written]
          case Corrected => w.files - {temp};
        Step(Failed(ExtractFailed), w.(files := files))
      else if !o.renameOk then Step(Failed(RenameFailed), w.(files := w.files - {temp}))
      else
        var files := (w.files - {temp})[saved.hash := saved.written];
        Commit(policy, true, w.(files := files), prefix, req, LocalUrl(prefix, saved.hash), saved, o)
  }

  /** The branch of init_chi.go:154-165: the image is fetched and only hashed.
      A failed `http.Get` usually leaves `resp` nil, so `resp.Body` at line
      157 panics and the request ends with nothing changed (`fetch` is
      `None`). When the redirect limit is hit, `resp` is non-nil with its
      body already closed: reading it fails, `saveImg` fails and the handler
      replies with an error, which the model covers as a fetched body whose
      decoding fails. */
  function UploadRemote(policy: Policy, w: World, prefix: string, req: Request, o: Oracles,
                        digest: seq<byte> -> Sha1Sum): (s: Step)
    ensures s.response.Failed? ==>
      && s.world.images == w.images && s.world.tags == w.tags
      && w.nextId <= s.world.nextId <= w.nextId + 1
      && (s.response.err != InsertFailed ==> s.world.nextId == w.nextId)
    ensures s.response.Created? ==>
      && s.response.id == w.nextId && s.world.nextId == w.nextId + 1
      && |s.world.images| == |w.images| + 1
  {
    if !HasWebScheme(req.url) || o.fetch.None? then Step(Failed(FetchAborted), w)
    else
      var saved := SaveImg(o.fetch.value, o.exif, o.drain, digest);
      if saved.err.Some? then Step(Failed(ExtractFailed), w)
      else Commit(policy, false, w, prefix, req, req.url, saved, o)
  }

  /** One upload request. */
  function UploadImg(policy: Policy, w: World, prefix: string, req: Request, o: Oracles,
                     digest: seq<byte> -> Sha1Sum): (s: Step)
    ensures !o.formOk ==> s == Step(Failed(BadForm), w)
    ensures s.response.Failed? ==>
      && s.world.images == w.images && s.world.tags == w.tags
      && w.nextId <= s.world.nextId <= w.nextId + 1
      && (s.response.err != InsertFailed ==> s.world.nextId == w.nextId)
    ensures s.response.Created? ==>
      && s.response.id == w.nextId && s.world.nextId == w.nextId + 1
      && |s.world.images| == |w.images| + 1
  {
    if !o.formOk then Step(Failed(BadForm), w)
    else if !o.urlParses then UploadLocal(policy, w, prefix, req, o, digest)
    else UploadRemote(policy, w, prefix, req, o, digest)
  }

  /** The bytes the upload hashes: the form file, or the fetched body. */
  function Source(o: Oracles): Option<seq<byte>> {
    if !o.urlParses then o.img else if o.fetch.Some? then o.fetch else None
  }

  /** A successful upload inserts exactly one row, under the hash of the
      whole source, holding `point(lon, lat)`, the tag, the description and
      the local URL or the unchanged remote one, and replies with its id;
      a local upload has also moved the whole source to the file named by
      the hash. */
  lemma UploadSuccess(policy: Policy, w: World, prefix: string, req: Request, o: Oracles,
                      digest: seq<byte> -> Sha1Sum)
    requires UploadImg(policy, w, prefix, req, o, digest).response.Created?
    ensures Source(o).Some? && o.exif.result.LatLong?
    ensures var s := UploadImg(policy, w, prefix, req, o, digest);
      var bytes := Source(o).value;
      var h := Hex.EncodeToString(digest(bytes));
      var url := if !o.urlParses then LocalUrl(prefix, h) else req.url;
      var row := Records.Row(w.nextId, Records.PgPoint(o.exif.result.lon, o.exif.result.lat),
                             req.tag, req.dsc, url, h, o.now);
      && h !in w.images
      && s.response == Created(w.nextId)
      && s.world.images == w.images[h := row]
      && (!o.urlParses ==> h in s.world.files && s.world.files[h] == bytes)
      && (o.urlParses ==> s.world.files == w.files)
  {
  }

  /** Whether the tag insert succeeds changes nothing but the tag table. */
  lemma TagOutcomeIrrelevant(policy: Policy, w: World, prefix: string, req: Request, o: Oracles,
                             digest: seq<byte> -> Sha1Sum)
    ensures var s1 := UploadImg(policy, w, prefix, req, o.(tagInsertOk := true), digest);
      var s2 := UploadImg(policy, w, prefix, req, o.(tagInsertOk := false), digest);
      && s1.response == s2.response
      && s1.world.(tags := w.tags) == s2.world.(tags := w.tags)
      && (s1.response.Created? ==> s1.world.tags == w.tags + {req.tag} && s2.world.tags == w.tags)
  {
  }

  /** As written, a failed extraction in local mode reaches neither the
      rename nor the insert and leaves the temporary file behind, holding
      what the tee had written to it. */
  lemma LocalExtractFailureKeepsTemp(w: World, prefix: string, req: Request, o: Oracles,
                                     digest: seq<byte> -> Sha1Sum)
    requires o.formOk && !o.urlParses && o.img.Some? && o.tempSuffix.Some?
    requires SaveImg(o.img.value, o.exif, o.drain, digest).err.Some?
    ensures var s := UploadImg(AsWritten, w, prefix, req, o, digest);
      var temp := TempName(o.tempSuffix.value);
      && s.response == Failed(ExtractFailed)
      && s.world == w.(files := w.files[temp := SaveImg(o.img.value, o.exif, o.drain, digest).written])
  {
  }

  /** A failed rename removes the temporary file and inserts nothing. */
  lemma LocalRenameFailureRemovesTemp(policy: Policy, w: World, prefix: string, req: Request, o: Oracles,
                                      digest: seq<byte> -> Sha1Sum)
    requires o.formOk && !o.urlParses && o.img.Some? && o.tempSuffix.Some? && !o.renameOk
    requires SaveImg(o.img.value, o.exif, o.drain, digest).err.None?
    ensures var s := UploadImg(policy, w, prefix, req, o, digest);
      s.response == Failed(RenameFailed) && s.world == w.(files := w.files - {TempName(o.tempSuffix.value)})
  {
  }

  /** As written, a failed image insert removes the file named by the hash,
      in local and in remote mode alike, and whether or not an earlier row
      owns it. */
  lemma AsWrittenInsertFailureRemovesHashFile(w: World, prefix: string, req: Request, o: Oracles,
                                              digest: seq<byte> -> Sha1Sum)
    requires UploadImg(AsWritten, w, prefix, req, o, digest).response == Failed(InsertFailed)
    ensures Source(o).Some?
    ensures var s := UploadImg(AsWritten, w, prefix, req, o, digest);
      var h := Hex.EncodeToString(digest(Source(o).value));
      && h !in s.world.files
      && s.world.images == w.images
  {
  }

  /** Every row whose URL is the local one of its hash has its file. */
  predicate RecordsHaveFiles(w: World, prefix: string) {
    forall h :: h in w.images && w.images[h].url == LocalUrl(prefix, h) ==> h in w.files
  }

  /** Every file in the storage root belongs to a row. */
  predicate FilesHaveRecords(w: World, prefix: string) {
    forall f :: f in w.files ==> Owned(w, prefix, f)
  }

  /** Each row sits under its own hash. */
  predicate WellKeyed(w: World) {
    forall h :: h in w.images ==> w.images[h].hash == h
  }

  /** Metadata and file storage agree: neither a row without its file nor a
      file without its row. */
  predicate Consistent(w: World, prefix: string) {
    WellKeyed(w) && RecordsHaveFiles(w, prefix) && FilesHaveRecords(w, prefix)
  }

  /** `ioutil.TempFile` creates a file that did not exist. */
  predicate TempFresh(w: World, o: Oracles) {
    o.tempSuffix.Some? ==> TempName(o.tempSuffix.value) !in w.files
  }

  /** The oracles that take a local upload up to the image insert. */
  predicate LocalReachesInsert(o: Oracles, bytes: seq<byte>) {
    && o.formOk && !o.urlParses && o.img == Some(bytes) && o.tempSuffix.Some?
    && o.exif.result.LatLong? && o.drain.NoFault? && o.renameOk
  }

  /** The oracles that take a remote upload up to the image insert. */
  predicate RemoteReachesInsert(o: Oracles, url: string, bytes: seq<byte>) {
    && o.formOk && o.urlParses && HasWebScheme(url) && o.fetch == Some(bytes)
    && o.exif.result.LatLong? && o.drain.NoFault?
  }

  /** First break: uploading again the content of a locally stored image
      fails the insert on the unique hash, and the cleanup then deletes the
      earlier image's file, which its row still points at. */
  lemma DuplicateLocalUploadOrphansRecord(w: World, prefix: string, req: Request, o: Oracles,
                                          digest: seq<byte> -> Sha1Sum, bytes: seq<byte>)
    requires LocalReachesInsert(o, bytes)
    requires Owned(w, prefix, Hex.EncodeToString(digest(bytes)))
    ensures var s := UploadImg(AsWritten, w, prefix, req, o, digest);
      && s.response == Failed(InsertFailed)
      && Owned(s.world, prefix, Hex.EncodeToString(digest(bytes)))
      && !RecordsHaveFiles(s.world, prefix)
  {
  }

  /** Second break: a remote upload of content already stored locally wrote
      no file, yet its failed insert deletes the earlier image's file. */
  lemma DuplicateRemoteUploadOrphansRecord(w: World, prefix: string, req: Request, o: Oracles,
                                           digest: seq<byte> -> Sha1Sum, bytes: seq<byte>)
    requires RemoteReachesInsert(o, req.url, bytes)
    requires Owned(w, prefix, Hex.EncodeToString(digest(bytes)))
    ensures var s := UploadImg(AsWritten, w, prefix, req, o, digest);
      && s.response == Failed(InsertFailed)
      && Owned(s.world, prefix, Hex.EncodeToString(digest(bytes)))
      && !RecordsHaveFiles(s.world, prefix)
  {
  }

  /** A duplicate upload, in either mode and under either cleanup, is
      refused on the unique hash but still uses up the id the sequence had
      drawn for it, so the next created row skips that id. */
  lemma DuplicateUploadUsesId(policy: Policy, w: World, prefix: string, req: Request, o: Oracles,
                              digest: seq<byte> -> Sha1Sum, bytes: seq<byte>)
    requires LocalReachesInsert(o, bytes) || RemoteReachesInsert(o, req.url, bytes)
    requires Hex.EncodeToString(digest(bytes)) in w.images
    ensures var s := UploadImg(policy, w, prefix, req, o, digest);
      && s.response == Failed(InsertFailed)
      && s.world.images == w.images
      && s.world.nextId == w.nextId + 1
  {
  }

  /** Third break: from a consistent world, a local upload whose image has
      no readable geotag leaves a temporary file that no row owns. */
  lemma ExtractFailureLeaksTemp(w: World, prefix: string, req: Request, o: Oracles,
                                digest: seq<byte> -> Sha1Sum)
    requires Consistent(w, prefix) && TempFresh(w, o)
    requires o.formOk && !o.urlParses && o.img.Some? && o.tempSuffix.Some? && !o.exif.result.LatLong?
    ensures var s := UploadImg(AsWritten, w, prefix, req, o, digest);
      && s.response == Failed(ExtractFailed)
      && TempName(o.tempSuffix.value) in s.world.files
      && !FilesHaveRecords(s.world, prefix)
  {
    var s := UploadImg(AsWritten, w, prefix, req, o, digest);
    assert s.world.images == w.images;
  }

  /** A local URL never carries a web scheme, so a remote row is never
      mistaken for a local one. */
  lemma LocalUrlIsNotWeb(prefix: string, h: string)
    requires ValidPrefix(prefix) && Hex.IsLowerHex(h)
    ensures !HasWebScheme(LocalUrl(prefix, h))
  {
    var u := LocalUrl(prefix, h);
    if |u| > 0 {
      assert u[0] == (if prefix == "" then h[0] else '/');
      assert Lower(u)[0] == LowerAscii(u[0]);
    }
  }

  /** The corrected insert step of a local upload, after the rename has
      put the staged file under its hash, restores consistency. */
  lemma CorrectedLocalCommit(w: World, prefix: string, req: Request, o: Oracles, saved: Saved, temp: string)
    requires Consistent(w, prefix) && temp !in w.files
    ensures var staged := w.(files := (w.files - {temp})[saved.hash := saved.written]);
      Consistent(Commit(Corrected, true, staged, prefix, req, LocalUrl(prefix, saved.hash), saved, o).world, prefix)
  {
    if saved.hash in w.images || !o.insertOk {
      CorrectedLocalInsertRefused(w, prefix, req, o, saved, temp);
    } else {
      CorrectedLocalInsertDone(w, prefix, req, o, saved, temp);
    }
  }

  lemma CorrectedLocalInsertRefused(w: World, prefix: string, req: Request, o: Oracles, saved: Saved, temp: string)
    requires Consistent(w, prefix) && temp !in w.files
    requires saved.hash in w.images || !o.insertOk
    ensures var staged := w.(files := (w.files - {temp})[saved.hash := saved.written]);
      Consistent(Commit(Corrected, true, staged, prefix, req, LocalUrl(prefix, saved.hash), saved, o).world, prefix)
  {
    var h := saved.hash;
    var staged := w.(files := (w.files - {temp})[h := saved.written]);
    var s := Commit(Corrected, true, staged, prefix, req, LocalUrl(prefix, h), saved, o);
    assert s.world.images == w.images;
    if Owned(w, prefix, h) {
      assert h in w.files;
      assert s.world.files.Keys == w.files.Keys;
    } else {
      assert s.world.files.Keys == w.files.Keys - {h};
    }
  }

  lemma CorrectedLocalInsertDone(w: World, prefix: string, req: Request, o: Oracles, saved: Saved, temp: string)
    requires Consistent(w, prefix) && temp !in w.files
    requires saved.hash !in w.images && o.insertOk
    ensures var staged := w.(files := (w.files - {temp})[saved.hash := saved.written]);
      Consistent(Commit(Corrected, true, staged, prefix, req, LocalUrl(prefix, saved.hash), saved, o).world, prefix)
  {
    var h := saved.hash;
    var staged := w.(files := (w.files - {temp})[h := saved.written]);
    var s := Commit(Corrected, true, staged, prefix, req, LocalUrl(prefix, h), saved, o);
    var row := s.world.images[h];
    assert row.hash == h && row.url == LocalUrl(prefix, h);
    assert s.world.images == w.images[h := row];
    assert s.world.files == staged.files;
    assert WellKeyed(s.world);
    assert RecordsHaveFiles(s.world, prefix);
    forall f | f in s.world.files
      ensures Owned(s.world, prefix, f)
    {
      if f != h {
        assert Owned(w, prefix, f);
      }
    }
  }

  /** The corrected insert step of a remote upload keeps consistency: the
      new row's URL is a web URL, so it needs no file. */
  lemma CorrectedRemoteCommit(w: World, prefix: string, req: Request, o: Oracles, saved: Saved)
    requires Consistent(w, prefix) && ValidPrefix(prefix) && Hex.IsLowerHex(saved.hash) && HasWebScheme(req.url)
    ensures Consistent(Commit(Corrected, false, w, prefix, req, req.url, saved, o).world, prefix)
  {
    var h := saved.hash;
    var s := Commit(Corrected, false, w, prefix, req, req.url, saved, o);
    if !(h in w.images || !o.insertOk) {
      LocalUrlIsNotWeb(prefix, h);
      assert s.world.images[h].url != LocalUrl(prefix, h);
      assert h !in w.files;
      forall f | f in s.world.files
        ensures Owned(s.world, prefix, f)
      {
        assert Owned(w, prefix, f);
      }
    }
  }

  /** The corrected local branch keeps consistency. */
  lemma CorrectedLocalPreservesConsistency(w: World, prefix: string, req: Request, o: Oracles,
                                           digest: seq<byte> -> Sha1Sum)
    requires Consistent(w, prefix) && TempFresh(w, o)
    ensures Consistent(UploadLocal(Corrected, w, prefix, req, o, digest).world, prefix)
  {
    if o.img.Some? && o.tempSuffix.Some? {
      var saved := SaveImg(o.img.value, o.exif, o.drain, digest);
      var temp := TempName(o.tempSuffix.value);
      assert w.files - {temp} == w.files;
      if saved.err.None? && o.renameOk {
        CorrectedLocalCommit(w, prefix, req, o, saved, temp);
      }
    }
  }

  /** The corrected remote branch keeps consistency. */
  lemma CorrectedRemotePreservesConsistency(w: World, prefix: string, req: Request, o: Oracles,
                                            digest: seq<byte> -> Sha1Sum)
    requires Consistent(w, prefix) && ValidPrefix(prefix)
    ensures Consistent(UploadRemote(Corrected, w, prefix, req, o, digest).world, prefix)
  {
    if HasWebScheme(req.url) && o.fetch.Some? {
      var saved := SaveImg(o.fetch.value, o.exif, o.drain, digest);
      if saved.err.None? {
        CorrectedRemoteCommit(w, prefix, req, o, saved);
      }
    }
  }

  /** With the corrected cleanup every upload step, whatever its oracles,
      keeps metadata and file storage consistent. */
  lemma CorrectedUploadPreservesConsistency(w: World, prefix: string, req: Request, o: Oracles,
                                            digest: seq<byte> -> Sha1Sum)
    requires Consistent(w, prefix) && ValidPrefix(prefix) && TempFresh(w, o)
    ensures Consistent(UploadImg(Corrected, w, prefix, req, o, digest).world, prefix)
  {
    if o.formOk && o.urlParses {
      CorrectedRemotePreservesConsistency(w, prefix, req, o, digest);
    } else if o.formOk {
      CorrectedLocalPreservesConsistency(w, prefix, req, o, digest);
    }
  }

  /** Every stored id was drawn from the sequence before its current
      value, as the `bigserial` primary key (init_pg.go:53) guarantees. */
  predicate IdsBelowNext(w: World) {
    forall h :: h in w.images ==> w.images[h].id < w.nextId
  }

  /** The image table's answer to `WHERE id=$1`: a row with that id, if any. */
  ghost function RowById(w: World, id: int): (r: Option<Records.Row>)
    ensures r.None? <==> forall h :: h in w.images ==> w.images[h].id != id
    ensures r.Some? ==> r.value.id == id && exists h :: h in w.images && w.images[h] == r.value
  {
    if exists h :: h in w.images && w.images[h].id == id then
      var h :| h in w.images && w.images[h].id == id;
      Some(w.images[h])
    else None
  }

  /** Every upload step, under either cleanup, keeps the stored ids below
      the sequence's next value. */
  lemma UploadKeepsIdsBelowNext(policy: Policy, w: World, prefix: string, req: Request, o: Oracles,
                                digest: seq<byte> -> Sha1Sum)
    requires IdsBelowNext(w)
    ensures IdsBelowNext(UploadImg(policy, w, prefix, req, o, digest).world)
  {
    var s := UploadImg(policy, w, prefix, req, o, digest);
    if s.response.Created? {
      UploadSuccess(policy, w, prefix, req, o, digest);
    }
  }

  /** The lookup by the new id finds exactly the new row: no earlier row
      can carry an id the sequence had not yet drawn. */
  lemma NewIdFindsNewRow(policy: Policy, w: World, prefix: string, req: Request, o: Oracles,
                         digest: seq<byte> -> Sha1Sum)
    requires IdsBelowNext(w)
    requires UploadImg(policy, w, prefix, req, o, digest).response.Created?
    ensures Source(o).Some?
    ensures var s := UploadImg(policy, w, prefix, req, o, digest);
      var h := Hex.EncodeToString(digest(Source(o).value));
      && h in s.world.images
      && RowById(s.world, s.response.id) == Some(s.world.images[h])
  {
    UploadSuccess(policy, w, prefix, req, o, digest);
  }

  /** What a client reads back: the point lookup of a freshly created id,
      answered from the image table after the upload, returns the extracted
      coordinate, the tag and description, and a 40-digit hex hash. */
  lemma UploadThenLookup(policy: Policy, w: World, prefix: string, req: Request, o: Oracles,
                         digest: seq<byte> -> Sha1Sum, scheme: string, host: string)
    requires IdsBelowNext(w)
    requires UploadImg(policy, w, prefix, req, o, digest).response.Created?
    ensures Source(o).Some? && o.exif.result.LatLong?
    ensures var s := UploadImg(policy, w, prefix, req, o, digest);
      var h := Hex.EncodeToString(digest(Source(o).value));
      var id := s.response.id;
      var found := Records.GetImg(Some(id), i => RowById(s.world, i), scheme, host);
      && found.Found?
      && found.img.id == id
      && found.img.loc == Records.Point(o.exif.result.lat, o.exif.result.lon)
      && found.img.tag == req.tag && found.img.dsc == req.dsc
      && found.img.hash == h && |h| == 40 && Hex.IsLowerHex(h)
  {
    UploadSuccess(policy, w, prefix, req, o, digest);
    NewIdFindsNewRow(policy, w, prefix, req, o, digest);
  }

  /** Fourth break: with the package variable left "" by the shadowing at
      init_chi.go:43, the stored URL is the bare hash, and the read-side
      rewrite runs the host and the hash together. */
  lemma ShadowedPrefixRunsHostIntoHash(scheme: string, host: string, h: string)
    requires Hex.IsLowerHex(h)
    ensures LocalUrl("", h) == h
    ensures Records.NormaliseUrl(scheme, host, LocalUrl("", h)) == scheme + "://" + host + h
  {
    if |h| >= 4 {
      assert Hex.IsLowerHexChar(h[0]);
      assert h[..4][0] == h[0];
    }
  }

  /** With the clean absolute prefix init_chi.go:43 computes, the stored URL
      is a path, so the rewrite puts a `/` between the host and the path,
      and the path ends in `/<hash>`. */
  lemma CleanPrefixSeparatesHost(scheme: string, host: string, prefix: string, h: string)
    requires |prefix| > 0 && prefix[0] == '/'
    ensures var url := LocalUrl(prefix, h);
      && url[0] == '/'
      && Records.NormaliseUrl(scheme, host, url) == scheme + "://" + host + url
      && HasSuffix(url, "/" + h)
  {
    var url := LocalUrl(prefix, h);
    assert url[0] == '/';
    assert |url| >= 4 ==> url[..4][0] == '/';
    if prefix[|prefix| - 1] == '/' {
      assert url == prefix[..|prefix| - 1] + ("/" + h);
    } else {
      assert url == prefix + ("/" + h);
    }
  }
}
